=== FILE: README.md ===
# Jenkins failed-test reporter, modelled in Dafny

`reporter.py` builds a spreadsheet of failing tests for a list of Jenkins
jobs. Each configured job URL is forced to end in `/`. The script asks the
job's test-report REST endpoint for every case's `className`, `name`,
`status` and `errorDetails`. It flattens the suites and their cases into
records, keeps the `FAILED` and `REGRESSION` records, and groups them by
`(className, errorDetails)`. It counts each group and sorts the groups by
count, highest first. The rows go to a sheet named after the job (the last
20 characters of the URL's third-from-last `/` piece), and the workbook is
saved once every job is written.

The model, module by module:

- `Outcomes` holds the Python exceptions the core can raise (KeyError,
  TypeError, IndexError, AttributeError, and a decoding error) and a `Result` type that
  carries them. An exception ends the run, so every operation returns a
  `Result`.
- `Json` holds the decoded document and Python's two operations on it:
  - `v["key"]` raises TypeError on a non-dict, and KeyError on a missing
    key;
  - a duplicated key keeps its last value, at the position of its first
    occurrence;
  - `for x in v` yields a list's items, a string's characters, or a dict's
    keys, each key once.
- `Traverse` holds the two loop shapes of the core:
  - one result per element, as in the run over the jobs and the cases of a
    suite;
  - lists concatenated in order, as in the run over the suites;
  - in both, the first error ends the loop. Their lemmas are proved once,
    for any step function.
- `JobUrl` holds the URL normalisation, the REST request URL, Python's
  `str.split("/")` with its empty pieces, the short job name at index −3,
  and the `[-20:]` sheet name.
- `Extract` holds `extract_tests_report`:
  - a specification function, `ExtractReport`;
  - the source's nested loop as two methods, `ExtractTestsReport` over the
    suites and `AppendCaseRecords` over one suite's cases, proved equal to it.
- `Aggregation` holds `createGroupedDataFrame` as a pure
  filter / group / count / sort over sequences.
- `Exporter` holds the loop of `main`:
  - the download, with its two error handlers (one of them defective, see
    "Findings");
  - a `Workbook` class whose sheets and saved flag the run updates;
  - the `Export` method, proved against the pure `Report`;
  - a worked example for the sample URL in the configuration block.

## Model

| member | source | states |
|---|---|---|
| JobUrl.Normalize | reporter.py:64 | the result ends in `/`; a URL already ending in `/` is unchanged, any other gets exactly one `/` appended |
| JobUrl.NormalizeIdempotent | reporter.py:64 | normalising twice is normalising once |
| Exporter.NormalizeAll | reporter.py:63-64 | one URL per configured line, in order, each the normalisation of its line and ending in `/` |
| JobUrl.RestUrl | reporter.py:19 | the request URL is the job URL followed by the fixed report query, which asks for the four case fields |
| JobUrl.JobUrlOf | reporter.py:19 | a request URL is recognised exactly when it ends in the fixed query, and is then the job URL followed by that query |
| JobUrl.RestUrlRoundTrip | reporter.py:19 | the job URL can be recovered from the request URL built from it |
| JobUrl.RestUrlDoubledSlash | reporter.py:19 | for a normalised job URL the request URL holds `//` right after the job URL |
| JobUrl.Split | reporter.py:58 | `url.split("/")` has one more piece than the URL has `/` characters |
| JobUrl.SplitPiecesSlashFree | reporter.py:58 | no piece holds a `/` |
| JobUrl.JoinSplit | reporter.py:58 | joining the pieces with `/` gives the URL back |
| JobUrl.SplitJoin | reporter.py:58 | splitting `/`-joined `/`-free pieces gives the pieces back |
| JobUrl.SplitSlashFree | reporter.py:58 | a `/`-free string is a single piece |
| JobUrl.SplitAppend | reporter.py:58 | the pieces of `a + "/" + b` are those of a followed by those of b |
| JobUrl.SplitThenPiece | reporter.py:58 | a `/` and then a `/`-free part add exactly that part as the last piece |
| JobUrl.ShortJobName | reporter.py:57-59 | IndexError exactly when the URL has fewer than two `/` (fewer than three pieces); otherwise the result is the third piece from the end of `url.split("/")`, and holds no `/` |
| JobUrl.ShortJobNameOfThreePieces | reporter.py:57-59 | a URL of three `/`-free parts `x/y/z`, the shortest that has a short name, gives x |
| JobUrl.SplitLastThree | reporter.py:58 | the last three pieces of `base/x/y/z` are x, y and z |
| JobUrl.ShortJobNameOfParts | reporter.py:57-59 | the short name of `base/x/y/z` is x, the third piece from the end |
| JobUrl.ShortJobNameOfBuildUrl | reporter.py:57-59 | for a normalised build URL `base/job/build/` the short name is the job segment, because the trailing `/` leaves an empty last piece |
| JobUrl.ShortJobNameWithoutTrailingSlash | reporter.py:57-59 | without the trailing `/` the same rule yields the literal segment `job` |
| JobUrl.ShortJobNameOfSampleUrl | reporter.py:57-59 | the sample URL's short name is `your-project` |
| JobUrl.SheetName | reporter.py:74 | `[-20:]`: the result is a suffix of the name, its length is the smaller of 20 and the name's length, and a name of at most 20 characters is kept whole |
| JobUrl.SheetNameLongestSuffix | reporter.py:74 | every suffix of at most 20 characters is a suffix of the sheet name |
| Json.LookupFindsLast | reporter.py:39-44 | a key is found exactly when some member has it, and the value found is that of the last such member |
| Json.SubscriptMeaning | reporter.py:39-44 | `v[key]` succeeds exactly on a dict holding the key and yields the last value under it; a dict without the key raises KeyError, any other value TypeError |
| Json.IterateMeaning | reporter.py:41-43 | iterating succeeds exactly on lists, strings and dicts; a list yields its items, a string its characters as one-character strings, a dict each of its keys exactly once; anything else raises TypeError |
| Json.CharsMeaning | reporter.py:41-43 | iterating a string yields its characters, one by one |
| Json.KeysMeaning | reporter.py:41-43 | iterating a dict yields every key of its members and nothing else, with no key twice |
| Json.KeysOrder | reporter.py:41-43 | the keys come in the order of their first occurrence in the document |
| Json.IterateRepeatedKey | reporter.py:41-43 | a key written twice in the document is yielded once |
| Traverse.MapAllMeaning | reporter.py:43-44 | the loop succeeds exactly when every step does; result j is element j's; on failure the error is the first failing element's |
| Traverse.MapAllErrSticks | reporter.py:43-44 | once a prefix fails, the whole loop fails with the same error |
| Traverse.MapAllStep | reporter.py:43-44 | the same, from one loop index to the next |
| Traverse.ConcatAllMeaning | reporter.py:41-44 | the outer loop succeeds exactly when every suite does; on failure the error is the first failing suite's |
| Traverse.ConcatAllErrSticks | reporter.py:41-44 | once a prefix of the suites fails, the whole loop fails with the same error |
| Traverse.ConcatAllStep | reporter.py:41-44 | the same, from one loop index to the next |
| Traverse.ConcatAllAppend | reporter.py:41-44 | over two runs of suites, the loop succeeds exactly when both do, and the records of the first come first |
| Traverse.ConcatAllAt | reporter.py:41-44 | suite i's records stand between those of the suites before and after it |
| Traverse.ConcatAllSingle | reporter.py:41-44 | a single suite yields its own records |
| Extract.CaseRecordMeaning | reporter.py:44 | a case yields a record exactly when it is a dict with all four keys; each field is the case's value under that key, the last one when the key repeats; a non-dict raises TypeError; otherwise the first missing key in the order status, className, name, errorDetails raises KeyError |
| Extract.ExtraMembersIgnored | reporter.py:44 | a case member under any other key, wherever it stands, leaves the record unchanged |
| Extract.SuiteRecordsMeaning | reporter.py:42-44 | a suite yields records exactly when its `cases` can be iterated and every case has a record; record j is case j's; otherwise the error is the suite's own or that of its first case without a record |
| Extract.FlattenCount | reporter.py:40-46 | one record per case: the count is the sum over suites of their case counts |
| Extract.ExtractLayout | reporter.py:40-46 | the count is the total number of cases, and suite i's records, in case order, stand right after those of the suites before it |
| Extract.ExtractFails | reporter.py:39-44 | extraction fails exactly when `suites` cannot be iterated, some suite has no iterable `cases`, or some case lacks one of the four keys |
| Extract.ExtractTestsReport | reporter.py:36-46 | the loop over the suites returns exactly the specification's result, records or error |
| Extract.AppendCaseRecords | reporter.py:43-44 | the loop over one suite's cases appends their records, in case order, to those extracted so far, or ends with the first failing case's error |
| Aggregation.Aggregate | reporter.py:48-55 | a job without records raises KeyError on `status`; any other job yields rows |
| Aggregation.FailingMembers | reporter.py:50 | exactly the records whose status is `FAILED` or `REGRESSION` pass the filter |
| Aggregation.FailingAppend | reporter.py:50 | the filter works record by record and keeps order |
| Aggregation.AggregateIgnoresPassing | reporter.py:50 | adding a record that is not failing leaves the rows unchanged |
| Aggregation.GroupKeysDistinct | reporter.py:51 | each group key is listed once |
| Aggregation.GroupKeysMembers | reporter.py:51 | the listed keys are exactly those of the records with non-null className and errorDetails |
| Aggregation.CountKeyPositive | reporter.py:51-52 | a group's count is positive exactly when one of its records has a non-null name |
| Aggregation.GroupSum | reporter.py:51-52 | the group counts sum to the number of counted failing records |
| Aggregation.RowsForKeys | reporter.py:51-53 | the rows come one per key, in key order |
| Aggregation.RowsForCounts | reporter.py:51-52 | each row's count is the count of its key |
| Aggregation.InsertPermutes | reporter.py:54 | insertion adds the row and loses none |
| Aggregation.InsertSorted | reporter.py:54 | insertion into rows sorted by count keeps them sorted |
| Aggregation.InsertSum | reporter.py:54 | insertion adds the row's count to the total |
| Aggregation.InsertDistinct | reporter.py:54 | inserting a row with a new key keeps the keys free of repeats |
| Aggregation.SortByCountMeaning | reporter.py:54 | the sort gives non-increasing counts, is a permutation of its input, and keeps the total and distinct keys |
| Aggregation.AggregateSorted | reporter.py:54 | counts never increase from one row to the next |
| Aggregation.AggregateIsGroup | reporter.py:51-54 | the rows are exactly the groups of the failing records |
| Aggregation.AggregateKeysUnique | reporter.py:51 | each `(className, errorDetails)` pair is on at most one row |
| Aggregation.AggregateCounts | reporter.py:51-52 | each row's count is the number of failing records in its group with a non-null name |
| Aggregation.AggregateKeysComplete | reporter.py:51 | a pair has a row exactly when some failing record with non-null className and errorDetails carries it |
| Aggregation.AggregateCountPositive | reporter.py:51-52 | a row's count is at least 1 exactly when one of its records has a non-null name |
| Aggregation.AggregateSum | reporter.py:51-52 | the counts sum to the number of failing records that are counted |
| Aggregation.AllCounted | reporter.py:51-52 | when no record has a null field, every record is counted |
| Aggregation.AggregateWithoutNulls | reporter.py:50-52 | when no failing record has a null className, errorDetails or name, the counts sum to the number of failing records and every count is at least 1 |
| Exporter.UnreachableRaises | reporter.py:30-32 | as written, an unreachable server makes the download raise AttributeError; the intended download gives the empty text |
| Exporter.DownloadNeverRaises | reporter.py:22-34 | the intended download never raises, agrees with the written one wherever that does not raise, and gives the empty text on every failure |
| Exporter.JobSheetMeaning | reporter.py:72-74 | a job gets a sheet exactly when the server answers with a non-empty body that decodes and extracts, there is at least one record, and the URL has at least three pieces; the sheet is named by the `[-20:]` cut of the short name, is at most 20 characters, and holds the aggregated rows; a failed download ends in a decoding error |
| Exporter.ReportMeaning | reporter.py:70-74 | one sheet per job, in order, each that job's; the run fails exactly when some job fails, with the first failing job's error |
| Exporter.FailedDownloadAbortsRun | reporter.py:27-38 | a job whose download fails ends the run, since the empty text does not decode |
| Exporter.HandleJob | reporter.py:72-74 | one loop body computes exactly that job's sheet or error |
| Exporter.Workbook.constructor | reporter.py:68 | a new workbook has no sheets and is unsaved |
| Exporter.Workbook.WriteSheet | reporter.py:74 | appends one sheet and changes nothing else |
| Exporter.Workbook.Save | reporter.py:76 | marks the workbook saved and keeps its sheets |
| Exporter.Export | reporter.py:61-77 | on success the workbook holds exactly the report's sheets in URL order, is saved, and the reported count is the number of URLs; on failure the error is the first failing job's, the workbook holds the sheets of the jobs before it, and it is not saved |
| Exporter.ExampleCaseRecord | reporter.py:44 | a sample case gives its four fields as a record |
| Exporter.ExampleCaseRecords | reporter.py:43-44 | the sample cases give their records in order |
| Exporter.ExampleExtracts | reporter.py:36-46 | the sample report extracts to its three records |
| Exporter.ExampleAggregates | reporter.py:48-55 | the sample records give one row: class A, count 2, error `boom`; the passing case without error details is dropped |
| Exporter.ExampleRun | reporter.py:70-74 | a run over the sample URL writes one sheet named `your-project` holding that row |

## Left out

- The proxy bypass (reporter.py:14-16) and the HTTP exchange are network
  I/O. The server is a parameter that maps a request URL to a body, an HTTP
  error, or no answer. The download (reporter.py:22-34) is modelled on top of
  it: an HTTP error gives the empty text. As written, an unreachable server
  raises AttributeError (see "Findings"); the run uses the intended download,
  which gives the empty text there too.
- Exporter.DownloadNeverRaises: "never raises" holds over the three
  modelled answers only. The source has two further exits that end the run
  and that `Response` has no case for. First, the request object is built
  at reporter.py:24, before the `try`. Python's request class raises
  ValueError ("unknown url type") for a request URL without a scheme, such
  as one built from the configured line `jenkins/job/your-project/1/`, or
  from a blank line, which normalises to `/`. The model lets such a job
  have a sheet whenever `server` answers it with a body. Second, the body is
  decoded as UTF-8 at reporter.py:34, which raises UnicodeDecodeError on
  bytes that are not UTF-8. `Body` carries text that is already decoded.
- JSON text decoding (reporter.py:38) is a library parser. It is a
  parameter on non-empty text. The empty text is never JSON, so a failed
  download ends the run with a decoding error.
- Floats are not modelled: numbers are integers. A float reaching the
  grouping as a className or errorDetails would compare with the library's
  rules (`1 == 1.0`, and a `NaN` accepted by the decoder counts as null).
  These rules are not captured.
- Splitting the configuration block into lines (reporter.py:63) is not
  modelled. `Export` takes the list of lines.
- The timestamped file name (reporter.py:67) depends on the clock, and the
  spreadsheet encoding (reporter.py:68, 74, 76) is library I/O. The
  workbook is modelled as its list of sheet writes and a saved flag.
- Console output (`print`) throughout is a side effect only.
- Exporter.Workbook.WriteSheet records every write as its own sheet. In the
  file, the spreadsheet library writes a table whose sheet name was already
  used onto that same worksheet, over the earlier table's cells, and the
  earlier table's rows below the new table's last row remain. The two
  sample URLs (reporter.py:5-6) both give the name `your-project`, so the
  sample configuration yields one worksheet in which the second job's
  table overwrites the first job's. The model does not capture this
  overwriting.
- Exporter.Workbook.WriteSheet accepts every name. The spreadsheet library
  behind reporter.py:74 refuses some names, and the refusal ends the run.
  It refuses a name that differs from an earlier sheet's name only in
  letter case (a duplicate sheet name), and a name holding one of the
  characters `[ ] : * ? \` (an invalid sheet name). A job URL whose short
  name holds such a character, or two jobs whose short names differ only in
  case, therefore end the run at line 74 in the source but not in the model.
- Aggregation.SortByCount: the source's sort is not stable, so the model
  fixes one order of rows with equal counts. No lemma states anything about
  that order.
- Aggregation.Aggregate: group keys compare as decoded values. The
  data-frame library's hashing quirks are not modelled: `True == 1` as a
  key, and a list or dict value that cannot be a key.
- The library's rules on null keys and null names are modelled explicitly.
  Grouping drops a record whose className or errorDetails is null, and a
  count skips records whose name is null. So a failing record with a null
  className or errorDetails is in no row. A group can have count 0 when all
  its names are null. `AggregateWithoutNulls` gives the plain totals and
  the "at least 1" bound when no such nulls occur.

## Findings

| source | as written | input that shows it | evidently intended | confidence | as-written member | corrected member |
|---|---|---|---|---|---|---|
| reporter.py:30-32 | the handler for a low-level URLError formats `e.code`, which a URLError that is not an HTTPError does not have, so the handler raises AttributeError | a configured job URL whose host cannot be resolved | report the error and return the empty text, as the HTTPError handler does | high; not executed | Exporter.UnreachableRaises | Exporter.DownloadNeverRaises |

Either way the job's run ends: the empty text does not decode. The defect
changes only the exception that ends it.

=== FILE: aggregate.dfy ===
/** The aggregation of one job's records into the rows of its sheet: keep the
    failing records, group them by (className, errorDetails), count each
    group, and order the rows by count, highest first.

    The grouping follows the data-frame library's defaults, which the source
    relies on: a record whose className or errorDetails is null belongs to no
    group, and a group's count is the number of its records whose name is not
    null. */
module Aggregation {
  import opened Outcomes
  import opened Json
  import opened Extract

  /** One row of a job's sheet; the fields are the sheet's columns, in order. */
  datatype Row = Row(className: Value, count: nat, errorDetails: Value)

  /** The grouping key of a record or a row. */
  datatype Key = Key(className: Value, errorDetails: Value)

  /** The filter: the status is exactly the string FAILED or REGRESSION. */
  predicate IsFailing(rec: Record) {
    rec.status == Str("FAILED") || rec.status == Str("REGRESSION")
  }

  /** The failing records, in their original order. */
  function Failing(recs: seq<Record>): seq<Record> {
    if recs == [] then []
    else
      var last := recs[|recs| - 1];
      Failing(recs[..|recs| - 1]) + (if IsFailing(last) then [last] else [])
  }

  /** A record that belongs to a group: neither key field is null. */
  predicate Keyed(rec: Record) {
    rec.className != Null && rec.errorDetails != Null
  }

  function KeyOf(rec: Record): Key {
    Key(rec.className, rec.errorDetails)
  }

  function RowKey(row: Row): Key {
    Key(row.className, row.errorDetails)
  }

  /** A record that adds one to its group's count: it has a group and a name. */
  predicate Counted(rec: Record) {
    Keyed(rec) && rec.name != Null
  }

  /** Some record has group k. */
  predicate HasGroup(fs: seq<Record>, k: Key) {
    exists i :: 0 <= i < |fs| && Keyed(fs[i]) && KeyOf(fs[i]) == k
  }

  predicate Distinct<T(==)>(s: seq<T>) {
    forall i, j :: 0 <= i < j < |s| ==> s[i] != s[j]
  }

  /** The groups present among the records, in order of first appearance. */
  function GroupKeys(fs: seq<Record>): seq<Key> {
    if fs == [] then []
    else
      var ks := GroupKeys(fs[..|fs| - 1]);
      var rec := fs[|fs| - 1];
      if Keyed(rec) && KeyOf(rec) !in ks then ks + [KeyOf(rec)] else ks
  }

  /** The count of group k: its records with a name. */
  function CountKey(fs: seq<Record>, k: Key): nat {
    if fs == [] then 0
    else
      var rec := fs[|fs| - 1];
      CountKey(fs[..|fs| - 1], k) + (if Counted(rec) && KeyOf(rec) == k then 1 else 0)
  }

  /** Number of counted records. */
  function CountedTotal(fs: seq<Record>): nat {
    if fs == [] then 0
    else CountedTotal(fs[..|fs| - 1]) + (if Counted(fs[|fs| - 1]) then 1 else 0)
  }

  /** One row per key, with that group's count. */
  function RowsFor(fs: seq<Record>, ks: seq<Key>): seq<Row> {
    if ks == [] then []
    else [Row(ks[0].className, CountKey(fs, ks[0]), ks[0].errorDetails)] + RowsFor(fs, ks[1..])
  }

  /** The grouped rows, before sorting. */
  function Group(fs: seq<Record>): seq<Row> {
    RowsFor(fs, GroupKeys(fs))
  }

  function RowKeys(rows: seq<Row>): seq<Key> {
    if rows == [] then [] else [RowKey(rows[0])] + RowKeys(rows[1..])
  }

  function SumCounts(rows: seq<Row>): nat {
    if rows == [] then 0 else rows[0].count + SumCounts(rows[1..])
  }

  /** Counts never increase from one row to the next. */
  predicate SortedByCount(rows: seq<Row>) {
    forall i :: 0 <= i < |rows| - 1 ==> rows[i].count >= rows[i + 1].count
  }

  /** Places x before the first row whose count is not above x's. */
  function Insert(x: Row, rows: seq<Row>): seq<Row> {
    if rows == [] || x.count >= rows[0].count then [x] + rows
    else [rows[0]] + Insert(x, rows[1..])
  }

  /** The descending sort by count. Rows of equal count may come in any order
      in the source; this model fixes one, and nothing below depends on it. */
  function SortByCount(rows: seq<Row>): seq<Row> {
    if rows == [] then [] else Insert(rows[0], SortByCount(rows[1..]))
  }

  /** The sheet rows of one job. A job without records has no `status`
      column at all, so selecting it raises KeyError. */
  function Aggregate(recs: seq<Record>): (r: Result<seq<Row>>)
    ensures r.Err? <==> recs == []
    ensures r.Err? ==> r.error == KeyError("status")
  {
    if recs == [] then Err(KeyError("status"))
    else Ok(SortByCount(Group(Failing(recs))))
  }

  // ---------------------------------------------------------------------
  // The filter

  /** Exactly the failing records pass the filter. */
  lemma {:induction false} FailingMembers(recs: seq<Record>)
    ensures forall x :: x in Failing(recs) <==> x in recs && IsFailing(x)
    decreases |recs|
  {
    if recs != [] {
      var n := |recs| - 1;
      FailingMembers(recs[..n]);
      assert recs == recs[..n] + [recs[n]];
    }
  }

  /** The filter keeps order: the failing records of two parts, one after the other. */
  lemma {:induction false} FailingAppend(a: seq<Record>, b: seq<Record>)
    ensures Failing(a + b) == Failing(a) + Failing(b)
    decreases |b|
  {
    if b == [] {
      assert a + b == a;
    } else {
      var n := |b| - 1;
      FailingAppend(a, b[..n]);
      assert (a + b)[..|a + b| - 1] == a + b[..n];
      assert (a + b)[|a + b| - 1] == b[n];
    }
  }

  // ---------------------------------------------------------------------
  // The groups

  lemma {:induction false} GroupKeysDistinct(fs: seq<Record>)
    ensures Distinct(GroupKeys(fs))
    decreases |fs|
  {
    if fs != [] {
      GroupKeysDistinct(fs[..|fs| - 1]);
    }
  }

  /** A group exists exactly for the keys of the records that have one. */
  lemma {:induction false} GroupKeysMembers(fs: seq<Record>)
    ensures forall k :: k in GroupKeys(fs) <==> HasGroup(fs, k)
    decreases |fs|
  {
    if fs != [] {
      var n := |fs| - 1;
      GroupKeysMembers(fs[..n]);
      assert forall i :: 0 <= i < n ==> fs[..n][i] == fs[i];
    }
  }

  /** A group's count is positive exactly when one of its records has a name. */
  lemma {:induction false} CountKeyPositive(fs: seq<Record>, k: Key)
    ensures CountKey(fs, k) > 0 <==> exists i :: 0 <= i < |fs| && Counted(fs[i]) && KeyOf(fs[i]) == k
    decreases |fs|
  {
    if fs != [] {
      var n := |fs| - 1;
      CountKeyPositive(fs[..n], k);
      assert forall i :: 0 <= i < n ==> fs[..n][i] == fs[i];
    }
  }

  /** Number of occurrences of k in ks. */
  function Occurrences(ks: seq<Key>, k: Key): nat {
    if ks == [] then 0 else (if ks[0] == k then 1 else 0) + Occurrences(ks[1..], k)
  }

  lemma {:induction false} OccurrencesDistinct(ks: seq<Key>, k: Key)
    requires Distinct(ks)
    ensures Occurrences(ks, k) == if k in ks then 1 else 0
    decreases |ks|
  {
    if ks != [] {
      assert Distinct(ks[1..]) by {
        forall i, j | 0 <= i < j < |ks[1..]| ensures ks[1..][i] != ks[1..][j] {
          assert ks[1..][i] == ks[i + 1] && ks[1..][j] == ks[j + 1];
        }
      }
      OccurrencesDistinct(ks[1..], k);
      assert ks == [ks[0]] + ks[1..];
      if ks[0] == k {
        assert k !in ks[1..] by {
          forall j | 0 <= j < |ks[1..]| ensures ks[1..][j] != k {
            assert ks[1..][j] == ks[j + 1];
          }
        }
      }
    }
  }

  /** Sum of the counts of the groups in ks. */
  function Total(fs: seq<Record>, ks: seq<Key>): nat {
    if ks == [] then 0 else CountKey(fs, ks[0]) + Total(fs, ks[1..])
  }

  lemma {:induction false} TotalIsSum(fs: seq<Record>, ks: seq<Key>)
    ensures SumCounts(RowsFor(fs, ks)) == Total(fs, ks)
    decreases |ks|
  {
    if ks != [] {
      TotalIsSum(fs, ks[1..]);
    }
  }

  lemma {:induction false} TotalAppendKey(fs: seq<Record>, ks: seq<Key>, k: Key)
    ensures Total(fs, ks + [k]) == Total(fs, ks) + CountKey(fs, k)
    decreases |ks|
  {
    if ks == [] {
      assert ks + [k] == [k];
    } else {
      assert (ks + [k])[1..] == ks[1..] + [k];
      TotalAppendKey(fs, ks[1..], k);
    }
  }

  lemma {:induction false} TotalAppendRecord(fs: seq<Record>, rec: Record, ks: seq<Key>)
    ensures Total(fs + [rec], ks) ==
              Total(fs, ks) + (if Counted(rec) then Occurrences(ks, KeyOf(rec)) else 0)
    decreases |ks|
  {
    if ks != [] {
      assert (fs + [rec])[..|fs|] == fs;
      TotalAppendRecord(fs, rec, ks[1..]);
    }
  }

  /** A key without a group has count zero. */
  lemma CountKeyOutsideGroups(fs: seq<Record>, k: Key)
    requires k !in GroupKeys(fs)
    ensures CountKey(fs, k) == 0
  {
    GroupKeysMembers(fs);
    CountKeyPositive(fs, k);
  }

  /** The group counts add up to the number of counted records. */
  lemma {:induction false} GroupSum(fs: seq<Record>)
    ensures SumCounts(Group(fs)) == CountedTotal(fs)
    decreases |fs|
  {
    TotalIsSum(fs, GroupKeys(fs));
    if fs != [] {
      var n := |fs| - 1;
      var init := fs[..n];
      var rec := fs[n];
      var ks := GroupKeys(init);
      GroupSum(init);
      TotalIsSum(init, ks);
      assert fs == init + [rec];
      TotalAppendRecord(init, rec, ks);
      GroupKeysDistinct(init);
      OccurrencesDistinct(ks, KeyOf(rec));
      if Keyed(rec) && KeyOf(rec) !in ks {
        TotalAppendKey(fs, ks, KeyOf(rec));
        CountKeyOutsideGroups(init, KeyOf(rec));
      }
    }
  }

  /** The grouped rows carry the groups' keys, in order. */
  lemma {:induction false} RowsForKeys(fs: seq<Record>, ks: seq<Key>)
    ensures RowKeys(RowsFor(fs, ks)) == ks
    decreases |ks|
  {
    if ks != [] {
      RowsForKeys(fs, ks[1..]);
    }
  }

  /** Every grouped row counts its own group. */
  lemma {:induction false} RowsForCounts(fs: seq<Record>, ks: seq<Key>)
    ensures forall r :: r in RowsFor(fs, ks) ==> r.count == CountKey(fs, RowKey(r))
    decreases |ks|
  {
    if ks != [] {
      RowsForCounts(fs, ks[1..]);
    }
  }

  lemma {:induction false} RowKeysMembers(rows: seq<Row>)
    ensures forall k :: k in RowKeys(rows) <==> exists r :: r in rows && RowKey(r) == k
    decreases |rows|
  {
    if rows != [] {
      RowKeysMembers(rows[1..]);
      assert rows == [rows[0]] + rows[1..];
    }
  }

  // ---------------------------------------------------------------------
  // The sort

  lemma {:induction false} InsertPermutes(x: Row, rows: seq<Row>)
    ensures multiset(Insert(x, rows)) == multiset(rows) + multiset{x}
    decreases |rows|
  {
    if rows != [] && x.count < rows[0].count {
      InsertPermutes(x, rows[1..]);
      assert rows == [rows[0]] + rows[1..];
    }
  }

  lemma {:induction false} InsertSorted(x: Row, rows: seq<Row>)
    requires SortedByCount(rows)
    ensures SortedByCount(Insert(x, rows))
    ensures Insert(x, rows)[0] == x || Insert(x, rows)[0] == rows[0]
    decreases |rows|
  {
    if rows != [] && x.count < rows[0].count {
      InsertSorted(x, rows[1..]);
    }
  }

  lemma {:induction false} InsertSum(x: Row, rows: seq<Row>)
    ensures SumCounts(Insert(x, rows)) == x.count + SumCounts(rows)
    decreases |rows|
  {
    if rows != [] && x.count < rows[0].count {
      InsertSum(x, rows[1..]);
    }
  }

  lemma {:induction false} InsertKeys(x: Row, rows: seq<Row>)
    ensures forall k :: k in RowKeys(Insert(x, rows)) <==> k == RowKey(x) || k in RowKeys(rows)
    decreases |rows|
  {
    if rows != [] && x.count < rows[0].count {
      InsertKeys(x, rows[1..]);
    }
  }

  /** Distinct keys, stated one row at a time. */
  lemma DistinctCons(k: Key, ks: seq<Key>)
    ensures Distinct([k] + ks) <==> k !in ks && Distinct(ks)
  {
    var s := [k] + ks;
    if Distinct(s) {
      forall j | 0 <= j < |ks| ensures ks[j] != k {
        assert s[0] == k && s[j + 1] == ks[j];
      }
      forall i, j | 0 <= i < j < |ks| ensures ks[i] != ks[j] {
        assert s[i + 1] == ks[i] && s[j + 1] == ks[j];
      }
    }
  }

  lemma {:induction false} InsertDistinct(x: Row, rows: seq<Row>)
    requires Distinct(RowKeys(rows)) && RowKey(x) !in RowKeys(rows)
    ensures Distinct(RowKeys(Insert(x, rows)))
    decreases |rows|
  {
    if rows == [] || x.count >= rows[0].count {
      DistinctCons(RowKey(x), RowKeys(rows));
    } else {
      var rest := rows[1..];
      DistinctCons(RowKey(rows[0]), RowKeys(rest));
      InsertDistinct(x, rest);
      InsertKeys(x, rest);
      assert RowKeys(Insert(x, rows)) == [RowKey(rows[0])] + RowKeys(Insert(x, rest));
      DistinctCons(RowKey(rows[0]), RowKeys(Insert(x, rest)));
    }
  }

  /** The sort orders by count and only reorders: same rows, same keys, same total. */
  lemma {:induction false} SortByCountMeaning(rows: seq<Row>)
    ensures SortedByCount(SortByCount(rows))
    ensures multiset(SortByCount(rows)) == multiset(rows)
    ensures SumCounts(SortByCount(rows)) == SumCounts(rows)
    ensures Distinct(RowKeys(rows)) ==> Distinct(RowKeys(SortByCount(rows)))
    decreases |rows|
  {
    if rows != [] {
      var rest := rows[1..];
      var sorted := SortByCount(rest);
      SortByCountMeaning(rest);
      assert rows == [rows[0]] + rest;
      InsertSorted(rows[0], sorted);
      InsertPermutes(rows[0], sorted);
      InsertSum(rows[0], sorted);
      if Distinct(RowKeys(rows)) {
        DistinctCons(RowKey(rows[0]), RowKeys(rest));
        RowKeysMembers(rest);
        RowKeysMembers(sorted);
        assert forall r :: r in sorted ==> r in rest by {
          forall r | r in sorted ensures r in rest {
            assert r in multiset(sorted);
          }
        }
        InsertDistinct(rows[0], sorted);
      }
    }
  }

  // ---------------------------------------------------------------------
  // The sheet rows

  /** Only failing records matter: a record that does not fail can be added
      anywhere to a non-empty list without changing the rows. */
  lemma AggregateIgnoresPassing(a: seq<Record>, rec: Record, b: seq<Record>)
    requires !IsFailing(rec) && a + b != []
    ensures Aggregate(a + [rec] + b) == Aggregate(a + b)
  {
    FailingAppend(a + [rec], b);
    FailingAppend(a, [rec]);
    FailingAppend(a, b);
    assert [rec][..0] == [];
    assert Failing([rec]) == [];
    assert Failing(a + [rec] + b) == Failing(a + b);
  }

  /** The rows come sorted by count, highest first. */
  lemma AggregateSorted(recs: seq<Record>)
    requires Aggregate(recs).Ok?
    ensures SortedByCount(Aggregate(recs).value)
  {
    SortByCountMeaning(Group(Failing(recs)));
  }

  /** The sorted rows are the grouped rows. */
  lemma AggregateIsGroup(recs: seq<Record>)
    requires Aggregate(recs).Ok?
    ensures forall r :: r in Aggregate(recs).value <==> r in Group(Failing(recs))
  {
    var grouped := Group(Failing(recs));
    var rows := SortByCount(grouped);
    SortByCountMeaning(grouped);
    forall r ensures r in rows <==> r in grouped {
      assert r in rows <==> r in multiset(rows);
      assert r in grouped <==> r in multiset(grouped);
    }
  }

  /** Each group has at most one row. */
  lemma AggregateKeysUnique(recs: seq<Record>)
    requires Aggregate(recs).Ok?
    ensures Distinct(RowKeys(Aggregate(recs).value))
  {
    var fs := Failing(recs);
    GroupKeysDistinct(fs);
    RowsForKeys(fs, GroupKeys(fs));
    SortByCountMeaning(Group(fs));
  }

  /** Every row carries its own group's count. */
  lemma AggregateCounts(recs: seq<Record>)
    requires Aggregate(recs).Ok?
    ensures forall r :: r in Aggregate(recs).value ==> r.count == CountKey(Failing(recs), RowKey(r))
  {
    AggregateIsGroup(recs);
    RowsForCounts(Failing(recs), GroupKeys(Failing(recs)));
  }

  /** There is a row for a key exactly when some failing record has that key. */
  lemma AggregateKeysComplete(recs: seq<Record>)
    requires Aggregate(recs).Ok?
    ensures forall k :: k in RowKeys(Aggregate(recs).value) <==> HasGroup(Failing(recs), k)
  {
    var fs := Failing(recs);
    var grouped := Group(fs);
    AggregateIsGroup(recs);
    RowsForKeys(fs, GroupKeys(fs));
    GroupKeysMembers(fs);
    RowKeysMembers(grouped);
    RowKeysMembers(Aggregate(recs).value);
    forall k ensures k in RowKeys(Aggregate(recs).value) <==> k in GroupKeys(fs) {
      if k in RowKeys(Aggregate(recs).value) {
        var r :| r in Aggregate(recs).value && RowKey(r) == k;
        assert r in grouped;
        assert k in RowKeys(grouped);
      }
      if k in GroupKeys(fs) {
        assert k in RowKeys(grouped);
        var r :| r in grouped && RowKey(r) == k;
        assert r in Aggregate(recs).value;
      }
    }
  }


  /** A row's count is at least one exactly when a failing record of its
      group has a name. */
  lemma AggregateCountPositive(recs: seq<Record>, row: Row)
    requires Aggregate(recs).Ok? && row in Aggregate(recs).value
    ensures row.count >= 1 <==>
              exists i :: 0 <= i < |Failing(recs)| && Counted(Failing(recs)[i]) && KeyOf(Failing(recs)[i]) == RowKey(row)
  {
    AggregateCounts(recs);
    assert row.count == CountKey(Failing(recs), RowKey(row));
    CountKeyPositive(Failing(recs), RowKey(row));
  }

  /** The counts add up to the number of failing records that have a group and a name. */
  lemma AggregateSum(recs: seq<Record>)
    requires Aggregate(recs).Ok?
    ensures SumCounts(Aggregate(recs).value) == CountedTotal(Failing(recs))
  {
    SortByCountMeaning(Group(Failing(recs)));
    GroupSum(Failing(recs));
  }

  /** When every failing record has a class name, error details and a name,
      the counts add up to the number of failing records and none is zero. */
  lemma {:induction false} AllCounted(fs: seq<Record>)
    requires forall i :: 0 <= i < |fs| ==> Counted(fs[i])
    ensures CountedTotal(fs) == |fs|
    decreases |fs|
  {
    if fs != [] {
      var n := |fs| - 1;
      assert forall i :: 0 <= i < n ==> fs[..n][i] == fs[i];
      AllCounted(fs[..n]);
    }
  }

  lemma AggregateWithoutNulls(recs: seq<Record>)
    requires Aggregate(recs).Ok?
    requires forall i :: 0 <= i < |Failing(recs)| ==> Counted(Failing(recs)[i])
    ensures SumCounts(Aggregate(recs).value) == |Failing(recs)|
    ensures forall r :: r in Aggregate(recs).value ==> r.count >= 1
  {
    AggregateSum(recs);
    AllCounted(Failing(recs));
    AggregateKeysComplete(recs);
    RowKeysMembers(Aggregate(recs).value);
    forall r | r in Aggregate(recs).value ensures r.count >= 1 {
      assert RowKey(r) in RowKeys(Aggregate(recs).value);
      AggregateCountPositive(recs, r);
    }
  }
}

=== FILE: extract.dfy ===
/** The report extractor: flattens the decoded test report, a list of suites
    each holding a list of cases, into one list of four-field records. */
module Extract {
  import opened Outcomes
  import opened Json
  import opened Traverse

  /** One extracted test result. Each field holds the case's value as decoded
      (a string, or null when the server reports none). */
  datatype Record = Record(status: Value, className: Value, name: Value, errorDetails: Value)

  /** A dictionary that carries all four fields of a record. */
  predicate HasRecordFields(item: Value) {
    && item.Obj?
    && HasMember(item.members, "status")
    && HasMember(item.members, "className")
    && HasMember(item.members, "name")
    && HasMember(item.members, "errorDetails")
  }

  /** The record built from one case, its four fields looked up in the order
      status, className, name, errorDetails. */
  function CaseRecord(item: Value): Result<Record> {
    var status :- Subscript(item, "status");
    var className :- Subscript(item, "className");
    var name :- Subscript(item, "name");
    var errorDetails :- Subscript(item, "errorDetails");
    Ok(Record(status, className, name, errorDetails))
  }

  /** A case yields a record exactly when it is a dictionary with the four
      fields, and each field of the record is the case's value under that key,
      which LookupFindsLast places at the last member carrying the key.
      A case that is not a dictionary raises TypeError; otherwise the first of
      the four keys it lacks, in lookup order, raises KeyError. */
  lemma CaseRecordMeaning(item: Value)
    ensures var r := CaseRecord(item);
            && (r.Ok? <==> HasRecordFields(item))
            && (r.Ok? ==> && Lookup(item.members, "status") == Some(r.value.status)
                          && Lookup(item.members, "className") == Some(r.value.className)
                          && Lookup(item.members, "name") == Some(r.value.name)
                          && Lookup(item.members, "errorDetails") == Some(r.value.errorDetails))
    ensures !item.Obj? ==> CaseRecord(item) == Err(TypeError)
    ensures item.Obj? ==>
              var m := item.members;
              var r := CaseRecord(item);
              && (!HasMember(m, "status") ==> r == Err(KeyError("status")))
              && ((HasMember(m, "status") && !HasMember(m, "className"))
                    ==> r == Err(KeyError("className")))
              && ((HasMember(m, "status") && HasMember(m, "className") && !HasMember(m, "name"))
                    ==> r == Err(KeyError("name")))
              && ((HasMember(m, "status") && HasMember(m, "className") && HasMember(m, "name")
                   && !HasMember(m, "errorDetails")) ==> r == Err(KeyError("errorDetails")))
  {
    if HasRecordFields(item) {
      LookupFindsLast(item.members, "status");
      LookupFindsLast(item.members, "className");
      LookupFindsLast(item.members, "name");
      LookupFindsLast(item.members, "errorDetails");
    }
  }

  /** A member under another key, wherever it stands, changes no lookup. */
  lemma {:induction false} LookupIgnoresOtherKey(a: seq<(string, Value)>, m: (string, Value), b: seq<(string, Value)>, key: string)
    requires m.0 != key
    ensures Lookup(a + [m] + b, key) == Lookup(a + b, key)
    decreases |b|
  {
    if b == [] {
      assert a + [m] + b == a + [m];
      assert (a + [m])[..|a|] == a;
      assert a + b == a;
    } else {
      var n := |b| - 1;
      LookupIgnoresOtherKey(a, m, b[..n], key);
      assert (a + [m] + b)[..|a + [m] + b| - 1] == a + [m] + b[..n];
      assert (a + b)[..|a + b| - 1] == a + b[..n];
    }
  }

  /** Members other than the four fields, wherever they stand in the case,
      do not change the record. */
  lemma ExtraMembersIgnored(a: seq<(string, Value)>, key: string, v: Value, b: seq<(string, Value)>)
    requires key != "status" && key != "className" && key != "name" && key != "errorDetails"
    ensures CaseRecord(Obj(a + [(key, v)] + b)) == CaseRecord(Obj(a + b))
  {
    LookupIgnoresOtherKey(a, (key, v), b, "status");
    LookupIgnoresOtherKey(a, (key, v), b, "className");
    LookupIgnoresOtherKey(a, (key, v), b, "name");
    LookupIgnoresOtherKey(a, (key, v), b, "errorDetails");
  }

  /** The records of a list of cases, in case order; the first case that
      cannot be turned into a record decides the error. */
  function CaseRecords(items: seq<Value>): Result<seq<Record>> {
    MapAll(CaseRecord, items)
  }

  /** The cases of a suite as the loop visits them, or none when the suite has
      no iterable `cases` member. */
  function SuiteCases(suite: Value): seq<Value> {
    match Subscript(suite, "cases")
    case Ok(cases) => (match Iterate(cases) case Ok(items) => items case Err(_) => [])
    case Err(_) => []
  }

  /** A suite that is a dictionary whose `cases` member can be iterated. */
  predicate HasCaseList(suite: Value) {
    Subscript(suite, "cases").Ok? && Iterate(Subscript(suite, "cases").value).Ok?
  }

  /** The records of one suite: its `cases` member is iterated and each case
      turned into a record. */
  function SuiteRecords(suite: Value): Result<seq<Record>> {
    var cases :- Subscript(suite, "cases");
    var items :- Iterate(cases);
    CaseRecords(items)
  }

  /** A suite yields records exactly when it has an iterable `cases` member
      and every case carries the four fields; the j-th record is the j-th
      case's. Otherwise the error is the suite's own (no dictionary, no
      `cases`, not iterable) or that of its first case without a record. */
  lemma SuiteRecordsMeaning(suite: Value)
    ensures SuiteRecords(suite).Ok? <==>
              HasCaseList(suite) && forall j :: 0 <= j < |SuiteCases(suite)| ==> CaseRecord(SuiteCases(suite)[j]).Ok?
    ensures SuiteRecords(suite).Ok? ==>
              var cases := SuiteCases(suite);
              var recs := SuiteRecords(suite).value;
              |recs| == |cases| && forall j :: 0 <= j < |cases| ==> CaseRecord(cases[j]) == Ok(recs[j])
    ensures !HasCaseList(suite) ==> SuiteRecords(suite).Err?
    ensures HasCaseList(suite) && SuiteRecords(suite).Err? ==>
              var cases := SuiteCases(suite);
              exists j :: 0 <= j < |cases| && CaseRecord(cases[j]) == Err(SuiteRecords(suite).error)
                          && forall k :: 0 <= k < j ==> CaseRecord(cases[k]).Ok?
  {
    MapAllMeaning(CaseRecord, SuiteCases(suite));
  }

  /** The records of a list of suites: suite order, then case order. */
  function FlattenSuites(suites: seq<Value>): Result<seq<Record>> {
    ConcatAll(SuiteRecords, suites)
  }

  /** The suites of a decoded report as the loop visits them, or none when
      the document has no iterable `suites` member. */
  function SuiteList(doc: Value): seq<Value> {
    match Subscript(doc, "suites")
    case Ok(suites) => (match Iterate(suites) case Ok(list) => list case Err(_) => [])
    case Err(_) => []
  }

  /** A document that is a dictionary whose `suites` member can be iterated. */
  predicate HasSuiteList(doc: Value) {
    Subscript(doc, "suites").Ok? && Iterate(Subscript(doc, "suites").value).Ok?
  }

  /** The extractor's result for a decoded report: its `suites` member is
      iterated and every suite's cases are flattened in order. */
  function ExtractReport(doc: Value): Result<seq<Record>> {
    var suites :- Subscript(doc, "suites");
    var list :- Iterate(suites);
    FlattenSuites(list)
  }

  /** Number of cases over a list of suites. */
  function CaseTotal(suites: seq<Value>): nat {
    if suites == [] then 0
    else CaseTotal(suites[..|suites| - 1]) + |SuiteCases(suites[|suites| - 1])|
  }

  /** Extraction completeness: one record per case. */
  lemma {:induction false} FlattenCount(suites: seq<Value>)
    requires FlattenSuites(suites).Ok?
    ensures |FlattenSuites(suites).value| == CaseTotal(suites)
    decreases |suites|
  {
    if suites != [] {
      var n := |suites| - 1;
      assert suites == suites[..n] + [suites[n]];
      ConcatAllSnoc(SuiteRecords, suites[..n], suites[n]);
      FlattenCount(suites[..n]);
      SuiteRecordsMeaning(suites[n]);
    }
  }

  /** Extraction completeness and order for a whole report: one record per
      case, and the records of suite i, which are its cases' records in case
      order, stand right after the CaseTotal(suites[..i]) records of the
      suites before it. */
  lemma ExtractLayout(doc: Value, i: nat)
    requires ExtractReport(doc).Ok? && i < |SuiteList(doc)|
    ensures |ExtractReport(doc).value| == CaseTotal(SuiteList(doc))
    ensures var suites := SuiteList(doc);
            var recs := ExtractReport(doc).value;
            var here := CaseRecords(SuiteCases(suites[i]));
            && here.Ok?
            && CaseTotal(suites[..i]) + |here.value| <= |recs|
            && recs[CaseTotal(suites[..i])..CaseTotal(suites[..i]) + |here.value|] == here.value
  {
    var suites := SuiteList(doc);
    var recs := ExtractReport(doc).value;
    assert FlattenSuites(suites) == Ok(recs);
    FlattenCount(suites);
    ConcatAllAt(SuiteRecords, suites, i);
    FlattenCount(suites[..i]);
    var before := FlattenSuites(suites[..i]).value;
    var here := SuiteRecords(suites[i]).value;
    assert recs[|before|..|before| + |here|] == here;
  }

  /** Extraction fails exactly when the report has no iterable `suites`, or
      some suite has no iterable `cases`, or some case lacks one of the four keys. */
  lemma ExtractFails(doc: Value)
    ensures ExtractReport(doc).Err? <==>
              || !HasSuiteList(doc)
              || (exists i :: 0 <= i < |SuiteList(doc)| && !HasCaseList(SuiteList(doc)[i]))
              || (exists i, j :: 0 <= i < |SuiteList(doc)| && 0 <= j < |SuiteCases(SuiteList(doc)[i])|
                                 && CaseRecord(SuiteCases(SuiteList(doc)[i])[j]).Err?)
  {
    var suites := SuiteList(doc);
    ConcatAllMeaning(SuiteRecords, suites);
    forall i | 0 <= i < |suites|
      ensures SuiteRecords(suites[i]).Ok? <==>
                HasCaseList(suites[i])
                && forall j :: 0 <= j < |SuiteCases(suites[i])| ==> CaseRecord(SuiteCases(suites[i])[j]).Ok?
    {
      SuiteRecordsMeaning(suites[i]);
    }
  }

  /** The extractor as the source runs it: one pass over the suites and, within
      each, over its cases, appending one record per case to a growing list. */
  method ExtractTestsReport(doc: Value) returns (r: Result<seq<Record>>)
    ensures r == ExtractReport(doc)
  {
    var suitesOr := Subscript(doc, "suites");
    if suitesOr.Err? {
      return Err(suitesOr.error);
    }
    var listOr := Iterate(suitesOr.value);
    if listOr.Err? {
      return Err(listOr.error);
    }
    var suites := listOr.value;
    var extracted: seq<Record> := [];
    for i := 0 to |suites|
      invariant FlattenSuites(suites[..i]) == Ok(extracted)
    {
      ConcatAllStep(SuiteRecords, suites, i);
      var casesOr := Subscript(suites[i], "cases");
      if casesOr.Err? {
        ConcatAllErrSticks(SuiteRecords, suites, i + 1);
        return Err(casesOr.error);
      }
      var itemsOr := Iterate(casesOr.value);
      if itemsOr.Err? {
        ConcatAllErrSticks(SuiteRecords, suites, i + 1);
        return Err(itemsOr.error);
      }
      assert SuiteRecords(suites[i]) == CaseRecords(itemsOr.value);
      var grown := AppendCaseRecords(itemsOr.value, extracted);
      if grown.Err? {
        ConcatAllErrSticks(SuiteRecords, suites, i + 1);
        return Err(grown.error);
      }
      extracted := grown.value;
    }
    assert suites[..|suites|] == suites;
    r := Ok(extracted);
  }

  /** The inner loop over one suite's cases: each case's record is appended,
      in case order, to the records extracted so far; the first case without
      a record ends it with that case's error. */
  method AppendCaseRecords(items: seq<Value>, extracted: seq<Record>) returns (r: Result<seq<Record>>)
    ensures CaseRecords(items).Ok? ==> r == Ok(extracted + CaseRecords(items).value)
    ensures CaseRecords(items).Err? ==> r == Err(CaseRecords(items).error)
  {
    var grown := extracted;
    for j := 0 to |items|
      invariant MapAll(CaseRecord, items[..j]).Ok?
      invariant grown == extracted + MapAll(CaseRecord, items[..j]).value
    {
      MapAllStep(CaseRecord, items, j);
      var recOr := CaseRecord(items[j]);
      if recOr.Err? {
        MapAllErrSticks(CaseRecord, items, j + 1);
        return Err(recOr.error);
      }
      grown := grown + [recOr.value];
    }
    assert items[..|items|] == items;
    r := Ok(grown);
  }
}

=== FILE: joburl.dfy ===
/** Job URLs: the trailing-slash normalisation applied to the configured URLs,
    the REST endpoint derived from a job URL, the short job name taken from the
    URL's path, and the sheet name cut from that short name. */
module JobUrl {
  import opened Outcomes

  /** The path and query appended to a job URL to ask for its test report,
      restricted to the four fields of each case; the source appends it with
      its leading `/`. */
  const RestSuffix: string := "/" + ReportQuery
  const ReportQuery: string := "testReport/api/json?pretty=true&tree=suites[cases[className,name,status,errorDetails]]"

  /** Sheet names keep at most this many trailing characters of the short name. */
  const SheetNameLength: nat := 20

  predicate EndsWithSlash(s: string) {
    |s| > 0 && s[|s| - 1] == '/'
  }

  /** The normalisation of each configured URL: a URL already ending in `/`
      is kept, any other gets exactly one `/` appended. */
  function Normalize(url: string): (r: string)
    ensures EndsWithSlash(r)
    ensures EndsWithSlash(url) ==> r == url
    ensures !EndsWithSlash(url) ==> r == url + "/"
  {
    if EndsWithSlash(url) then url else url + "/"
  }

  lemma NormalizeIdempotent(url: string)
    ensures Normalize(Normalize(url)) == Normalize(url)
  {
  }

  /** The request URL for a job's test report: the job URL followed by the fixed query. */
  function RestUrl(url: string): (r: string)
    ensures |r| == |url| + |RestSuffix|
    ensures r[..|url|] == url && r[|url|..] == RestSuffix
  {
    url + RestSuffix
  }

  /** The inverse of RestUrl: the job URL a request URL was built from, if any. */
  function JobUrlOf(rest: string): (r: Option<string>)
    ensures r.Some? <==> |rest| >= |RestSuffix| && rest[|rest| - |RestSuffix|..] == RestSuffix
    ensures r.Some? ==> rest == r.value + RestSuffix
  {
    if |rest| >= |RestSuffix| && rest[|rest| - |RestSuffix|..] == RestSuffix then
      var u := rest[..|rest| - |RestSuffix|];
      assert rest == u + RestSuffix;
      Some(u)
    else None
  }

  lemma RestUrlRoundTrip(url: string)
    ensures JobUrlOf(RestUrl(url)) == Some(url)
  {
    var r := RestUrl(url);
    assert r[|r| - |RestSuffix|..] == RestSuffix;
  }

  /** Because configured URLs end in `/` and the query starts with one, every
      request URL holds a doubled slash right after the job URL. */
  lemma RestUrlDoubledSlash(url: string)
    ensures var u := Normalize(url);
            RestUrl(u)[|u| - 1] == '/' && RestUrl(u)[|u|] == '/'
  {
    var u := Normalize(url);
    assert RestUrl(u)[|u| - 1] == u[|u| - 1];
    assert RestUrl(u)[|u|..] == RestSuffix;
  }

  /** Number of `/` characters in s. */
  function SlashCount(s: string): nat {
    if s == [] then 0
    else SlashCount(s[..|s| - 1]) + (if s[|s| - 1] == '/' then 1 else 0)
  }

  predicate SlashFree(s: string) {
    forall i :: 0 <= i < |s| ==> s[i] != '/'
  }

  /** Python's `s.split("/")`: the pieces between separators, empty pieces
      included, so there is always one more piece than separators. */
  function Split(s: string): (r: seq<string>)
    ensures |r| == SlashCount(s) + 1
    decreases |s|
  {
    if s == [] then [""] else Push(Split(s[..|s| - 1]), s[|s| - 1])
  }

  /** One character more: a `/` opens a new empty piece, any other character
      extends the last piece. */
  function Push(d: seq<string>, c: char): (r: seq<string>)
    requires |d| >= 1
    ensures |r| == |d| + (if c == '/' then 1 else 0)
  {
    if c == '/' then d + [""] else d[..|d| - 1] + [d[|d| - 1] + [c]]
  }

  predicate AllSlashFree(pieces: seq<string>) {
    forall i :: 0 <= i < |pieces| ==> SlashFree(pieces[i])
  }

  /** No piece holds a separator. */
  lemma {:induction false} SplitPiecesSlashFree(s: string)
    ensures AllSlashFree(Split(s))
    decreases |s|
  {
    if s != [] {
      var d := Split(s[..|s| - 1]);
      var c := s[|s| - 1];
      SplitPiecesSlashFree(s[..|s| - 1]);
      if c != '/' {
        var last := d[|d| - 1] + [c];
        assert SlashFree(last) by {
          assert SlashFree(d[|d| - 1]);
        }
        var r := d[..|d| - 1] + [last];
        forall i | 0 <= i < |r| ensures SlashFree(r[i]) {
          if i < |d| - 1 { assert r[i] == d[i]; }
        }
      }
    }
  }

  lemma PushAppend(x: seq<string>, y: seq<string>, c: char)
    requires |y| >= 1
    ensures Push(x + y, c) == x + Push(y, c)
  {
    if c != '/' {
      assert (x + y)[..|x + y| - 1] == x + y[..|y| - 1];
    }
  }

  /** Python's `"/".join(pieces)`. */
  function Join(pieces: seq<string>): string {
    if pieces == [] then ""
    else if |pieces| == 1 then pieces[0]
    else Join(pieces[..|pieces| - 1]) + "/" + pieces[|pieces| - 1]
  }

  /** Splitting loses nothing: joining the pieces gives the string back. */
  lemma {:induction false} JoinSplit(s: string)
    ensures Join(Split(s)) == s
    decreases |s|
  {
    if s != [] {
      var s' := s[..|s| - 1];
      var c := s[|s| - 1];
      var d := Split(s');
      JoinSplit(s');
      assert s == s' + [c];
      var r := Push(d, c);
      assert Split(s) == r;
      if c == '/' {
        assert r[..|r| - 1] == d;
      } else {
        assert r[..|r| - 1] == d[..|d| - 1];
        if |d| > 1 {
          assert Join(d) == Join(d[..|d| - 1]) + "/" + d[|d| - 1];
        }
      }
    }
  }

  lemma {:induction false} SplitSlashFree(s: string)
    requires SlashFree(s)
    ensures Split(s) == [s]
    decreases |s|
  {
    if s != [] {
      var s' := s[..|s| - 1];
      assert SlashFree(s');
      SplitSlashFree(s');
      assert s == s' + [s[|s| - 1]];
      assert Split(s) == Push([s'], s[|s| - 1]);
    }
  }

  /** A separator splits the string into the pieces of each side. */
  lemma {:induction false} SplitAppend(a: string, b: string)
    ensures Split(a + "/" + b) == Split(a) + Split(b)
    decreases |b|
  {
    var s := a + "/" + b;
    if b == [] {
      assert s[..|s| - 1] == a;
      assert Split(s) == Push(Split(a), '/');
    } else {
      var b' := b[..|b| - 1];
      var c := b[|b| - 1];
      SplitAppend(a, b');
      assert s[..|s| - 1] == a + "/" + b';
      assert Split(s) == Push(Split(a) + Split(b'), c);
      PushAppend(Split(a), Split(b'), c);
      assert Split(b) == Push(Split(b'), c);
    }
  }

  /** Joining `/`-free pieces and splitting again gives the pieces back. */
  lemma {:induction false} SplitJoin(pieces: seq<string>)
    requires |pieces| >= 1
    requires AllSlashFree(pieces)
    ensures Split(Join(pieces)) == pieces
    decreases |pieces|
  {
    var n := |pieces|;
    if n == 1 {
      SplitSlashFree(pieces[0]);
    } else {
      var init, last := pieces[..n - 1], pieces[n - 1];
      assert AllSlashFree(init) by {
        forall i | 0 <= i < |init| ensures SlashFree(init[i]) {
          assert init[i] == pieces[i];
        }
      }
      SplitJoin(init);
      assert pieces == init + [last];
      calc {
        Split(Join(pieces));
        Split(Join(init) + "/" + last);
        { SplitThenPiece(Join(init), last); }
        Split(Join(init)) + [last];
      }
    }
  }

  /** A separator followed by a `/`-free piece adds that piece. */
  lemma SplitThenPiece(a: string, last: string)
    requires SlashFree(last)
    ensures Split(a + "/" + last) == Split(a) + [last]
  {
    SplitAppend(a, last);
    SplitSlashFree(last);
  }

  /** The job's short name: the third piece from the end of the URL split on
      `/`; a URL with fewer than three pieces raises IndexError. */
  function ShortJobName(url: string): (r: Result<string>)
    ensures r.Err? <==> SlashCount(url) < 2
    ensures r.Err? ==> r.error == IndexError
    ensures r.Ok? ==> r.value == Split(url)[|Split(url)| - 3] && SlashFree(r.value)
  {
    var d := Split(url);
    SplitPiecesSlashFree(url);
    if |d| < 3 then Err(IndexError) else Ok(d[|d| - 3])
  }

  /** The last three pieces of a URL whose last three separators enclose
      the `/`-free parts x, y and z. */
  lemma {:induction false} SplitLastThree(base: string, x: string, y: string, z: string)
    requires SlashFree(x) && SlashFree(y) && SlashFree(z)
    ensures Split(base + "/" + x + "/" + y + "/" + z) == Split(base) + [x, y, z]
  {
    var yz := y + "/" + z;
    var xyz := x + "/" + yz;
    assert base + "/" + x + "/" + y + "/" + z == base + "/" + xyz;
    SplitSlashFree(x);
    SplitSlashFree(y);
    SplitSlashFree(z);
    SplitAppend(y, z);
    SplitAppend(x, yz);
    assert Split(xyz) == [x, y, z];
    SplitAppend(base, xyz);
  }

  /** The shortest URLs with a short name: three `/`-free parts, two
      separators; the short name is the first part. */
  lemma ShortJobNameOfThreePieces(x: string, y: string, z: string)
    requires SlashFree(x) && SlashFree(y) && SlashFree(z)
    ensures ShortJobName(x + "/" + y + "/" + z) == Ok(x)
  {
    var yz := y + "/" + z;
    var xyz := x + "/" + yz;
    assert x + "/" + y + "/" + z == xyz;
    SplitSlashFree(x);
    SplitSlashFree(y);
    SplitSlashFree(z);
    SplitAppend(y, z);
    SplitAppend(x, yz);
    assert Split(xyz) == [x, y, z];
  }

  /** The short name is the part before the last two separators. */
  lemma ShortJobNameOfParts(base: string, x: string, y: string, z: string)
    requires SlashFree(x) && SlashFree(y) && SlashFree(z)
    ensures ShortJobName(base + "/" + x + "/" + y + "/" + z) == Ok(x)
  {
    SplitLastThree(base, x, y, z);
    var d := Split(base + "/" + x + "/" + y + "/" + z);
    assert d[|d| - 3] == x;
  }

  /** For a normalised Jenkins build URL `<base>/<job>/<build>/` the short
      name is the job segment. */
  lemma ShortJobNameOfBuildUrl(base: string, job: string, build: string)
    requires SlashFree(job) && SlashFree(build)
    ensures ShortJobName(base + "/" + job + "/" + build + "/") == Ok(job)
  {
    ShortJobNameOfParts(base, job, build, "");
    assert base + "/" + job + "/" + build + "/" + "" == base + "/" + job + "/" + build + "/";
  }

  /** Without the trailing slash the same rule picks the segment before the
      job name, which is why the configured URLs are normalised first. */
  lemma ShortJobNameWithoutTrailingSlash(base: string, job: string, build: string)
    requires SlashFree(job) && SlashFree(build)
    ensures ShortJobName(base + "/job/" + job + "/" + build) == Ok("job")
  {
    ShortJobNameOfParts(base, "job", job, build);
    assert base + "/" + "job" + "/" + job + "/" + build == base + "/job/" + job + "/" + build;
  }

  lemma ShortJobNameOfSampleUrl()
    ensures ShortJobName("http://jenkins/view/xyz/job/your-project/10042/") == Ok("your-project")
  {
    ShortJobNameOfBuildUrl("http://jenkins/view/xyz/job", "your-project", "10042");
    assert "http://jenkins/view/xyz/job" + "/" + "your-project" + "/" + "10042" + "/"
        == "http://jenkins/view/xyz/job/your-project/10042/";
  }

  /** Python's `name[-20:]`: the start index -20 is clamped to 0 for short names. */
  function SheetName(name: string): (r: string)
    ensures |r| == if |name| <= SheetNameLength then |name| else SheetNameLength
    ensures r == name[|name| - |r|..]
    ensures |name| <= SheetNameLength ==> r == name
  {
    var start := if |name| >= SheetNameLength then |name| - SheetNameLength else 0;
    name[start..]
  }

  /** The sheet name is the longest suffix of the short name that fits: every
      suffix of at most 20 characters is also a suffix of the sheet name. */
  lemma SheetNameLongestSuffix(name: string, k: nat)
    requires k <= |name| && k <= SheetNameLength
    ensures var r := SheetName(name); k <= |r| && r[|r| - k..] == name[|name| - k..]
  {
  }
}

=== FILE: json.dfy ===
/** The already-decoded JSON document, and the two Python operations the report
    extractor applies to it: subscripting with a string key and iterating. */
module Json {
  import opened Outcomes

  /** A decoded JSON value. An object keeps its members in document order;
      when a key occurs twice, the later member wins, as with Python's decoder. */
  datatype Value =
    | Null
    | Bool(b: bool)
    | Num(n: int)
    | Str(s: string)
    | Arr(items: seq<Value>)
    | Obj(members: seq<(string, Value)>)

  /** The value of the last member with this key, if any. */
  function Lookup(members: seq<(string, Value)>, key: string): Option<Value> {
    if members == [] then None
    else if members[|members| - 1].0 == key then Some(members[|members| - 1].1)
    else Lookup(members[..|members| - 1], key)
  }

  predicate HasMember(members: seq<(string, Value)>, key: string) {
    Lookup(members, key).Some?
  }

  /** A key is found exactly when some member carries it, and the value found
      is that of the last such member. */
  lemma LookupFindsLast(members: seq<(string, Value)>, key: string)
    ensures HasMember(members, key) <==> exists i :: 0 <= i < |members| && members[i].0 == key
    ensures HasMember(members, key) ==>
              exists i :: 0 <= i < |members| && members[i] == (key, Lookup(members, key).value)
                          && forall j :: i < j < |members| ==> members[j].0 != key
  {
    if HasMember(members, key) {
      var i := LookupIndex(members, key);
    } else {
      LookupMisses(members, key);
    }
  }

  /** Where a lookup succeeds: the last member carrying the key. */
  lemma {:induction false} LookupIndex(members: seq<(string, Value)>, key: string) returns (i: nat)
    requires HasMember(members, key)
    ensures i < |members| && members[i] == (key, Lookup(members, key).value)
    ensures forall j :: i < j < |members| ==> members[j].0 != key
    decreases |members|
  {
    var n := |members| - 1;
    if members[n].0 == key {
      i := n;
    } else {
      var init := members[..n];
      i := LookupIndex(init, key);
      assert members[i] == init[i];
    }
  }

  /** Where a lookup fails, no member carries the key. */
  lemma {:induction false} LookupMisses(members: seq<(string, Value)>, key: string)
    requires !HasMember(members, key)
    ensures forall i :: 0 <= i < |members| ==> members[i].0 != key
    decreases |members|
  {
    if members != [] {
      var n := |members| - 1;
      var init := members[..n];
      LookupMisses(init, key);
      assert forall i :: 0 <= i < n ==> members[i] == init[i];
    }
  }

  /** Python's `v[key]` for a string key: a dict yields the member, or raises
      KeyError when it has none; every other kind raises TypeError. */
  function Subscript(v: Value, key: string): Result<Value> {
    match v
    case Obj(members) =>
      (match Lookup(members, key)
       case Some(x) => Ok(x)
       case None => Err(KeyError(key)))
    case _ => Err(TypeError)
  }

  /** Subscripting succeeds exactly on a dict holding the key, and yields the
      value of the last member with that key; a dict without the key raises
      KeyError, anything else TypeError. */
  lemma SubscriptMeaning(v: Value, key: string)
    ensures Subscript(v, key).Ok? <==> v.Obj? && exists i :: 0 <= i < |v.members| && v.members[i].0 == key
    ensures Subscript(v, key).Ok? ==>
              exists i :: 0 <= i < |v.members| && v.members[i] == (key, Subscript(v, key).value)
                          && forall j :: i < j < |v.members| ==> v.members[j].0 != key
    ensures Subscript(v, key).Err? ==> Subscript(v, key).error == if v.Obj? then KeyError(key) else TypeError
  {
    if v.Obj? {
      LookupFindsLast(v.members, key);
    }
  }

  /** Python's `for e in v`: a list yields its items, a string its characters
      as one-character strings, a dict its keys; other kinds raise TypeError. */
  function Iterate(v: Value): Result<seq<Value>> {
    match v
    case Arr(items) => Ok(items)
    case Str(s) => Ok(Chars(s))
    case Obj(members) => Ok(Keys(members))
    case _ => Err(TypeError)
  }

  /** The characters of a string, each as a one-character string. */
  function Chars(s: string): seq<Value> {
    if s == [] then [] else [Str([s[0]])] + Chars(s[1..])
  }

  /** The keys of a dict in the dict's own order: a key that occurs more than
      once in the document is kept once, at its first position. */
  function Keys(members: seq<(string, Value)>): seq<Value> {
    if members == [] then []
    else
      var ks := Keys(members[..|members| - 1]);
      var k := Str(members[|members| - 1].0);
      if k in ks then ks else ks + [k]
  }

  lemma {:induction false} CharsMeaning(s: string)
    ensures |Chars(s)| == |s|
    ensures forall i :: 0 <= i < |s| ==> Chars(s)[i] == Str([s[i]])
    decreases |s|
  {
    if s != [] {
      CharsMeaning(s[1..]);
    }
  }

  /** Each key of the dict comes once, and the keys yielded are exactly the
      keys of the members. */
  lemma {:induction false} KeysMeaning(members: seq<(string, Value)>)
    ensures forall a, b :: 0 <= a < b < |Keys(members)| ==> Keys(members)[a] != Keys(members)[b]
    ensures forall i :: 0 <= i < |members| ==> Str(members[i].0) in Keys(members)
    ensures forall x :: x in Keys(members) ==> exists i :: 0 <= i < |members| && x == Str(members[i].0)
    decreases |members|
  {
    if members != [] {
      var n := |members| - 1;
      var init := members[..n];
      KeysMeaning(init);
      assert forall i :: 0 <= i < n ==> init[i] == members[i];
    }
  }

  /** Key x first occurs in the members before any occurrence of key y. */
  predicate FirstBefore(members: seq<(string, Value)>, x: Value, y: Value) {
    exists i :: 0 <= i < |members| && x == Str(members[i].0)
                && forall j :: 0 <= j <= i ==> y != Str(members[j].0)
  }

  lemma FirstBeforeExtend(members: seq<(string, Value)>, m: (string, Value), x: Value, y: Value)
    requires FirstBefore(members, x, y)
    ensures FirstBefore(members + [m], x, y)
  {
    var i :| 0 <= i < |members| && x == Str(members[i].0)
             && forall j :: 0 <= j <= i ==> y != Str(members[j].0);
    assert forall j :: 0 <= j <= i ==> (members + [m])[j] == members[j];
  }

  /** The keys come in the order of their first occurrence in the document. */
  lemma {:induction false} KeysOrder(members: seq<(string, Value)>)
    ensures forall a, b :: 0 <= a < b < |Keys(members)| ==> FirstBefore(members, Keys(members)[a], Keys(members)[b])
    decreases |members|
  {
    if members != [] {
      var n := |members| - 1;
      var init := members[..n];
      var ks := Keys(init);
      var k := Str(members[n].0);
      KeysOrder(init);
      KeysMeaning(init);
      assert members == init + [members[n]];
      forall a, b | 0 <= a < b < |Keys(members)|
        ensures FirstBefore(members, Keys(members)[a], Keys(members)[b])
      {
        if b < |ks| {
          FirstBeforeExtend(init, members[n], ks[a], ks[b]);
        } else {
          assert ks[a] in ks;
          var i :| 0 <= i < n && ks[a] == Str(init[i].0);
          forall j | 0 <= j <= i ensures k != Str(members[j].0) {
            assert members[j] == init[j];
            assert Str(init[j].0) in ks;
          }
          assert ks[a] == Str(members[i].0);
        }
      }
    }
  }

  /** Iterating succeeds on lists, strings and dicts only, and yields, element
      by element, a list's items or a string's characters as one-character
      strings; a dict yields each of its keys once. */
  lemma IterateMeaning(v: Value)
    ensures Iterate(v).Ok? <==> v.Arr? || v.Str? || v.Obj?
    ensures Iterate(v).Err? ==> Iterate(v).error == TypeError
    ensures v.Arr? ==> Iterate(v) == Ok(v.items)
    ensures v.Str? ==> |Iterate(v).value| == |v.s|
                       && forall i :: 0 <= i < |v.s| ==> Iterate(v).value[i] == Str([v.s[i]])
    ensures v.Obj? ==> (forall i :: 0 <= i < |v.members| ==> Str(v.members[i].0) in Iterate(v).value)
                       && (forall x :: x in Iterate(v).value ==> exists i :: 0 <= i < |v.members| && x == Str(v.members[i].0))
                       && forall a, b :: 0 <= a < b < |Iterate(v).value| ==> Iterate(v).value[a] != Iterate(v).value[b]
  {
    if v.Str? {
      CharsMeaning(v.s);
    }
    if v.Obj? {
      KeysMeaning(v.members);
    }
  }

  /** A key repeated in the document is yielded once. */
  lemma IterateRepeatedKey()
    ensures Iterate(Obj([("a", Num(1)), ("a", Num(2))])) == Ok([Str("a")])
  {
    var m := [("a", Num(1)), ("a", Num(2))];
    assert m[..1] == [("a", Num(1))] && m[..1][..0] == [];
    assert Keys(m[..1]) == [Str("a")];
    assert Keys(m) == Keys(m[..1]);
  }
}

=== FILE: outcomes.dfy ===
/** The outcome of a step of the pipeline: a value, or the Python exception it raises. */
module Outcomes {

  /** The errors the pipeline can raise. None of them is caught; each ends the run. */
  datatype Error =
    | KeyError(key: string)   // a dictionary lacks the key
    | TypeError               // a value of the wrong kind is subscripted or iterated
    | IndexError              // a list is indexed out of range
    | DecodeError             // the downloaded text is not a JSON document
    | AttributeError          // an object lacks the attribute read from it

  datatype Result<+T> = Ok(value: T) | Err(error: Error) {
    predicate IsFailure() { Err? }

    function PropagateFailure<U>(): Result<U>
      requires Err?
    {
      Err(error)
    }

    function Extract(): T
      requires Ok?
    {
      value
    }
  }

  datatype Option<+T> = None | Some(value: T)
}

=== FILE: report.dfy ===
/** The export run: every configured job URL is normalised, its test report
    fetched, extracted and aggregated, and the rows written to a sheet named
    after the job; the workbook is saved once all jobs are written. Any error
    ends the run before the save. */
module Exporter {
  import opened Outcomes
  import opened Json
  import opened Traverse
  import opened JobUrl
  import opened Extract
  import opened Aggregation

  /** One sheet written to the workbook: its name and its rows. */
  datatype Sheet = Sheet(name: string, rows: seq<Row>)

  /** The spreadsheet being written: the sheets written so far, in order, and
      whether it has been saved. */
  class Workbook {
    var sheets: seq<Sheet>
    var saved: bool

    constructor ()
      ensures sheets == [] && !saved
    {
      sheets := [];
      saved := false;
    }

    /** Writes the rows to the named sheet. */
    method WriteSheet(name: string, rows: seq<Row>)
      modifies this
      ensures sheets == old(sheets) + [Sheet(name, rows)]
      ensures saved == old(saved)
    {
      sheets := sheets + [Sheet(name, rows)];
    }

    method Save()
      modifies this
      ensures saved && sheets == old(sheets)
    {
      saved := true;
    }
  }

  /** The configured URLs, each made to end in `/`. */
  function NormalizeAll(config: seq<string>): (urls: seq<string>)
    ensures |urls| == |config|
    ensures forall i :: 0 <= i < |urls| ==> EndsWithSlash(urls[i]) && urls[i] == Normalize(config[i])
  {
    seq(|config|, i requires 0 <= i < |config| => Normalize(config[i]))
  }

  /** What the server does with a request: it answers with a body, answers
      with an HTTP error status, or cannot be reached at all (no such host,
      connection refused). */
  datatype Response = Body(text: string) | HttpError(code: int) | Unreachable(reason: string)

  /** The parts of a run outside this model: `server` answers a request URL,
      and `parse` stands for `json.loads` on non-empty text, giving None when
      the text is not JSON. */
  datatype Remote = Remote(server: string -> Response, parse: string -> Option<Value>)

  /** `download_job_stats` as written. An HTTP error gives the empty text. The
      handler for an unreachable server formats `e.code`, an attribute the
      low-level error does not have, so that handler itself raises
      AttributeError. */
  function DownloadAsWritten(resp: Response): Result<string> {
    match resp
    case Body(text) => Ok(text)
    case HttpError(_) => Ok("")
    case Unreachable(_) => Err(AttributeError)
  }

  /** `download_job_stats` as its two handlers evidently intend: either failure
      is reported and gives the empty text. The run uses this one. */
  function Download(resp: Response): Result<string> {
    match resp
    case Body(text) => Ok(text)
    case HttpError(_) => Ok("")
    case Unreachable(_) => Ok("")
  }

  /** An unreachable server makes the download as written raise, where the
      intended download gives the empty text. */
  lemma UnreachableRaises(reason: string)
    ensures DownloadAsWritten(Unreachable(reason)) == Err(AttributeError)
    ensures Download(Unreachable(reason)) == Ok("")
  {
  }

  /** The intended download never raises, agrees with the written one
      wherever that one does not raise, and gives the empty text on every
      failure. */
  lemma DownloadNeverRaises(resp: Response)
    ensures Download(resp).Ok?
    ensures DownloadAsWritten(resp).Ok? ==> Download(resp) == DownloadAsWritten(resp)
    ensures !resp.Body? ==> Download(resp).value == ""
  {
  }

  /** `json.loads` of the downloaded text. The empty text is not JSON, so a
      failed download ends here with a decoding error. */
  function Decode(text: string, parse: string -> Option<Value>): Result<Value> {
    if text == "" then Err(DecodeError)
    else
      match parse(text)
      case Some(doc) => Ok(doc)
      case None => Err(DecodeError)
  }

  /** One job's sheet, with the errors in the order the source meets them:
      download and decoding, extraction, aggregation, and last the sheet name. */
  function JobSheet(url: string, net: Remote): Result<Sheet> {
    var text :- Download(net.server(RestUrl(url)));
    var doc :- Decode(text, net.parse);
    var recs :- ExtractReport(doc);
    var rows :- Aggregate(recs);
    var short :- ShortJobName(url);
    Ok(Sheet(SheetName(short), rows))
  }

  function JobStep(net: Remote): string -> Result<Sheet> {
    url => JobSheet(url, net)
  }

  lemma JobStepIsJobSheet(net: Remote, url: string)
    ensures JobStep(net)(url) == JobSheet(url, net)
  {
  }

  /** The sheets of a run over already-normalised URLs, one per URL in order;
      the first job that fails decides the error. */
  function Report(urls: seq<string>, net: Remote): Result<seq<Sheet>> {
    MapAll(JobStep(net), urls)
  }

  /** A job has a sheet exactly when the server answers with a non-empty
      body that decodes and extracts, there is at least one record, and the
      URL has at least three `/`-separated pieces; the sheet is named after
      the job and holds the aggregated rows. */
  lemma JobSheetMeaning(url: string, net: Remote)
    ensures var resp := net.server(RestUrl(url));
            JobSheet(url, net).Ok? <==>
              && resp.Body? && resp.text != ""
              && net.parse(resp.text).Some?
              && ExtractReport(net.parse(resp.text).value).Ok?
              && ExtractReport(net.parse(resp.text).value).value != []
              && SlashCount(url) >= 2
    ensures JobSheet(url, net).Ok? ==>
              var sheet := JobSheet(url, net).value;
              var doc := net.parse(net.server(RestUrl(url)).text).value;
              && sheet.name == SheetName(ShortJobName(url).value)
              && |sheet.name| <= SheetNameLength
              && Aggregate(ExtractReport(doc).value) == Ok(sheet.rows)
    ensures !net.server(RestUrl(url)).Body? ==> JobSheet(url, net) == Err(DecodeError)
  {
  }

  /** A run writes one sheet per job, in order, each the job's own; it fails
      exactly when some job fails, with the error of the first such job. */
  lemma ReportMeaning(urls: seq<string>, net: Remote)
    ensures Report(urls, net).Ok? <==> forall i :: 0 <= i < |urls| ==> JobSheet(urls[i], net).Ok?
    ensures Report(urls, net).Ok? ==>
              var sheets := Report(urls, net).value;
              |sheets| == |urls| && forall i :: 0 <= i < |urls| ==> JobSheet(urls[i], net) == Ok(sheets[i])
    ensures Report(urls, net).Err? ==>
              exists i :: 0 <= i < |urls| && JobSheet(urls[i], net) == Err(Report(urls, net).error)
                          && forall k :: 0 <= k < i ==> JobSheet(urls[k], net).Ok?
  {
    MapAllMeaning(JobStep(net), urls);
  }

  /** A job whose download fails ends the run: the empty text does not
      decode, and there is no recovery to an empty sheet. */
  lemma FailedDownloadAbortsRun(urls: seq<string>, net: Remote, i: nat)
    requires i < |urls| && !net.server(RestUrl(urls[i])).Body?
    ensures Report(urls, net).Err?
  {
    ReportMeaning(urls, net);
    JobSheetMeaning(urls[i], net);
  }

  /** One pass of the loop body before the sheet is written: fetch and
      extract the job's report, aggregate it, and resolve the sheet name. */
  method HandleJob(url: string, net: Remote) returns (r: Result<Sheet>)
    ensures r == JobSheet(url, net)
  {
    var text := Download(net.server(RestUrl(url))).value;
    var docOr := Decode(text, net.parse);
    if docOr.Err? {
      return Err(docOr.error);
    }
    var recsOr := ExtractTestsReport(docOr.value);
    if recsOr.Err? {
      return Err(recsOr.error);
    }
    var rowsOr := Aggregate(recsOr.value);
    if rowsOr.Err? {
      return Err(rowsOr.error);
    }
    var shortOr := ShortJobName(url);
    if shortOr.Err? {
      return Err(shortOr.error);
    }
    r := Ok(Sheet(SheetName(shortOr.value), rowsOr.value));
  }

  /** The run as the source performs it. The result is the number of sheets
      the final message reports; on error the workbook holds the sheets of the
      jobs before the failing one and is never saved. */
  method Export(config: seq<string>, net: Remote) returns (book: Workbook, r: Result<nat>)
    ensures fresh(book)
    ensures var report := Report(NormalizeAll(config), net);
            && (r.Ok? <==> report.Ok?)
            && (r.Ok? ==> r.value == |config| && book.saved && book.sheets == report.value)
            && (r.Err? ==> r.error == report.error && !book.saved)
    ensures r.Err? ==>
              var urls := NormalizeAll(config);
              exists k :: 0 <= k < |urls| && Report(urls[..k], net) == Ok(book.sheets)
                          && JobSheet(urls[k], net) == Err(r.error)
  {
    var urls := NormalizeAll(config);
    book := new Workbook();
    assert urls[..0] == [];
    for i := 0 to |urls|
      invariant !book.saved
      invariant Report(urls[..i], net) == Ok(book.sheets)
    {
      var url := urls[i];
      MapAllStep(JobStep(net), urls, i);
      JobStepIsJobSheet(net, url);
      var sheetOr := HandleJob(url, net);
      if sheetOr.Err? {
        MapAllErrSticks(JobStep(net), urls, i + 1);
        assert JobSheet(urls[i], net) == Err(sheetOr.error);
        return book, Err(sheetOr.error);
      }
      book.WriteSheet(sheetOr.value.name, sheetOr.value.rows);
    }
    assert urls[..|urls|] == urls;
    book.Save();
    r := Ok(|urls|);
  }

  // ---------------------------------------------------------------------
  // The worked example: two failing cases sharing a class and an error, one
  // passing case with no error details, served for the sample job URL.

  function ExampleCase(className: string, name: string, status: string, errorDetails: Value): Value {
    Obj([("className", Str(className)), ("name", Str(name)), ("status", Str(status)), ("errorDetails", errorDetails)])
  }

  function ExampleReport(): Value {
    Obj([("suites", Arr([Obj([("cases", Arr([
      ExampleCase("A", "t1", "FAILED", Str("boom")),
      ExampleCase("A", "t2", "FAILED", Str("boom")),
      ExampleCase("B", "t3", "PASSED", Null)]))])]))])
  }

  function ExampleRecords(): seq<Record> {
    [ Record(Str("FAILED"), Str("A"), Str("t1"), Str("boom")),
      Record(Str("FAILED"), Str("A"), Str("t2"), Str("boom")),
      Record(Str("PASSED"), Str("B"), Str("t3"), Null) ]
  }

  /** Each example case yields the record of its four fields. */
  lemma ExampleCaseRecord(className: string, name: string, status: string, errorDetails: Value)
    ensures CaseRecord(ExampleCase(className, name, status, errorDetails))
            == Ok(Record(Str(status), Str(className), Str(name), errorDetails))
  {
    var m := ExampleCase(className, name, status, errorDetails).members;
    assert m[..3][..2] == m[..2] && m[..2][..1] == m[..1] && m[..1][..0] == [];
    assert |"className"| == 9 && |"name"| == 4 && |"status"| == 6 && |"errorDetails"| == 12;
    assert Lookup(m, "errorDetails") == Some(errorDetails);
    assert Lookup(m[..3], "status") == Some(Str(status));
    assert Lookup(m, "status") == Some(Str(status));
    assert Lookup(m[..2], "name") == Some(Str(name));
    assert Lookup(m[..3], "name") == Some(Str(name));
    assert Lookup(m, "name") == Some(Str(name));
    assert Lookup(m[..1], "className") == Some(Str(className));
    assert Lookup(m[..2], "className") == Some(Str(className));
    assert Lookup(m[..3], "className") == Some(Str(className));
    assert Lookup(m, "className") == Some(Str(className));
  }

  function ExampleCases(): seq<Value> {
    [ ExampleCase("A", "t1", "FAILED", Str("boom")),
      ExampleCase("A", "t2", "FAILED", Str("boom")),
      ExampleCase("B", "t3", "PASSED", Null) ]
  }

  lemma ExampleCaseRecords()
    ensures CaseRecords(ExampleCases()) == Ok(ExampleRecords())
  {
    var cases := ExampleCases();
    var recs := ExampleRecords();
    ExampleCaseRecord("A", "t1", "FAILED", Str("boom"));
    ExampleCaseRecord("A", "t2", "FAILED", Str("boom"));
    ExampleCaseRecord("B", "t3", "PASSED", Null);
    MapAllMeaning(CaseRecord, cases);
    assert CaseRecords(cases).value == recs;
  }

  /** The example report extracts to its three records, in order. */
  lemma ExampleExtracts()
    ensures ExtractReport(ExampleReport()) == Ok(ExampleRecords())
  {
    var recs := ExampleRecords();
    var suite := Obj([("cases", Arr(ExampleCases()))]);
    ExampleCaseRecords();
    assert Lookup(suite.members, "cases") == Some(Arr(ExampleCases()));
    assert SuiteRecords(suite) == Ok(recs);
    ConcatAllSingle(SuiteRecords, suite);
    var doc := ExampleReport();
    assert doc == Obj([("suites", Arr([suite]))]);
    assert Lookup(doc.members, "suites") == Some(Arr([suite]));
  }

  /** The example aggregates to exactly one row: class A, count 2, error boom. */
  lemma ExampleAggregates()
    ensures Aggregate(ExampleRecords()) == Ok([Row(Str("A"), 2, Str("boom"))])
  {
    var recs := ExampleRecords();
    var fs := [recs[0], recs[1]];
    assert recs[..2] == fs && recs[..2][..1] == [recs[0]] && [recs[0]][..0] == [];
    assert Failing([recs[0]]) == [recs[0]];
    assert Failing(recs[..2]) == fs;
    assert Failing(recs) == fs;
    var k := Key(Str("A"), Str("boom"));
    assert fs[..1] == [fs[0]] && [fs[0]][..0] == [];
    assert GroupKeys([fs[0]]) == [k];
    assert GroupKeys(fs) == [k];
    assert CountKey([fs[0]], k) == 1;
    assert CountKey(fs, k) == 2;
    var row := Row(Str("A"), 2, Str("boom"));
    assert [k][1..] == [] && [row][1..] == [] && [row] + [] == [row];
    assert RowsFor(fs, [k][1..]) == [];
    assert RowsFor(fs, [k]) == [row] + [];
    assert Group(fs) == [row];
    assert SortByCount([row]) == [row];
  }

  /** The sample job served the example report gives one sheet, named
      `your-project`, holding that row. */
  lemma ExampleRun(net: Remote, text: string)
    requires net.server(RestUrl("http://jenkins/view/xyz/job/your-project/10042/")) == Body(text)
    requires text != "" && net.parse(text) == Some(ExampleReport())
    ensures Report(["http://jenkins/view/xyz/job/your-project/10042/"], net)
            == Ok([Sheet("your-project", [Row(Str("A"), 2, Str("boom"))])])
  {
    var url := "http://jenkins/view/xyz/job/your-project/10042/";
    ExampleExtracts();
    ExampleAggregates();
    ShortJobNameOfSampleUrl();
    assert SheetName("your-project") == "your-project";
    assert JobSheet(url, net) == Ok(Sheet("your-project", [Row(Str("A"), 2, Str("boom"))]));
    JobStepIsJobSheet(net, url);
    ReportMeaning([url], net);
    assert Report([url], net).value == [Sheet("your-project", [Row(Str("A"), 2, Str("boom"))])];
  }
}

=== FILE: traverse.dfy ===
/** Loops that visit a sequence in order, build a list from what each step
    yields, and stop at the first step that raises. */
module Traverse {
  import opened Outcomes

  /** One result per element, in order; the first element whose step fails
      decides the error. */
  function MapAll<A, B>(f: A -> Result<B>, xs: seq<A>): Result<seq<B>>
    decreases |xs|
  {
    if xs == [] then Ok([])
    else
      var n := |xs| - 1;
      match MapAll(f, xs[..n])
      case Err(e) => Err(e)
      case Ok(prefix) =>
        match f(xs[n])
        case Err(e) => Err(e)
        case Ok(y) => Ok(prefix + [y])
  }

  /** One more element: the results so far, then this element's result or its error. */
  lemma MapAllSnoc<A, B>(f: A -> Result<B>, xs: seq<A>, x: A)
    ensures MapAll(f, xs + [x]) ==
              match MapAll(f, xs)
              case Err(e) => Err(e)
              case Ok(prefix) =>
                match f(x)
                case Err(e) => Err(e)
                case Ok(y) => Ok(prefix + [y])
  {
    assert (xs + [x])[..|xs|] == xs;
  }

  /** The same, one prefix of a sequence to the next, as a loop over it sees it. */
  lemma MapAllStep<A, B>(f: A -> Result<B>, xs: seq<A>, i: nat)
    requires i < |xs|
    ensures MapAll(f, xs[..i + 1]) ==
              match MapAll(f, xs[..i])
              case Err(e) => Err(e)
              case Ok(prefix) =>
                match f(xs[i])
                case Err(e) => Err(e)
                case Ok(y) => Ok(prefix + [y])
  {
    assert xs[..i + 1] == xs[..i] + [xs[i]];
    MapAllSnoc(f, xs[..i], xs[i]);
  }

  /** The traversal succeeds exactly when every step does; then the j-th
      result is the j-th element's, and on failure the error is that of the
      first element whose step fails. */
  lemma {:induction false} MapAllMeaning<A, B>(f: A -> Result<B>, xs: seq<A>)
    ensures MapAll(f, xs).Ok? <==> forall j :: 0 <= j < |xs| ==> f(xs[j]).Ok?
    ensures MapAll(f, xs).Ok? ==>
              |MapAll(f, xs).value| == |xs|
              && forall j :: 0 <= j < |xs| ==> f(xs[j]) == Ok(MapAll(f, xs).value[j])
    ensures MapAll(f, xs).Err? ==>
              exists j :: 0 <= j < |xs| && f(xs[j]) == Err(MapAll(f, xs).error)
                          && forall k :: 0 <= k < j ==> f(xs[k]).Ok?
    decreases |xs|
  {
    if xs != [] {
      var n := |xs| - 1;
      var init := xs[..n];
      MapAllMeaning(f, init);
      assert xs == init + [xs[n]];
      MapAllSnoc(f, init, xs[n]);
      assert forall j :: 0 <= j < n ==> init[j] == xs[j];
      if MapAll(f, init).Ok? && f(xs[n]).Ok? {
        var all := MapAll(f, init).value + [f(xs[n]).value];
        assert MapAll(f, xs) == Ok(all);
        assert forall j :: 0 <= j < n ==> all[j] == MapAll(f, init).value[j];
      }
    }
  }

  /** Once a prefix fails, the whole traversal fails the same way. */
  lemma {:induction false} MapAllErrSticks<A, B>(f: A -> Result<B>, xs: seq<A>, k: nat)
    requires k <= |xs| && MapAll(f, xs[..k]).Err?
    ensures MapAll(f, xs) == MapAll(f, xs[..k])
    decreases |xs| - k
  {
    if k < |xs| {
      assert xs[..k + 1] == xs[..k] + [xs[k]];
      MapAllSnoc(f, xs[..k], xs[k]);
      MapAllErrSticks(f, xs, k + 1);
    } else {
      assert xs[..k] == xs;
    }
  }

  /** The lists yielded by the steps, concatenated in order; the first
      element whose step fails decides the error. */
  function ConcatAll<A, B>(f: A -> Result<seq<B>>, xs: seq<A>): Result<seq<B>>
    decreases |xs|
  {
    if xs == [] then Ok([])
    else
      var n := |xs| - 1;
      match ConcatAll(f, xs[..n])
      case Err(e) => Err(e)
      case Ok(prefix) =>
        match f(xs[n])
        case Err(e) => Err(e)
        case Ok(ys) => Ok(prefix + ys)
  }

  /** One more element: the results so far, then this element's list or its error. */
  lemma ConcatAllSnoc<A, B>(f: A -> Result<seq<B>>, xs: seq<A>, x: A)
    ensures ConcatAll(f, xs + [x]) ==
              match ConcatAll(f, xs)
              case Err(e) => Err(e)
              case Ok(prefix) =>
                match f(x)
                case Err(e) => Err(e)
                case Ok(ys) => Ok(prefix + ys)
  {
    assert (xs + [x])[..|xs|] == xs;
  }

  /** The same, one prefix of a sequence to the next, as a loop over it sees it. */
  lemma ConcatAllStep<A, B>(f: A -> Result<seq<B>>, xs: seq<A>, i: nat)
    requires i < |xs|
    ensures ConcatAll(f, xs[..i + 1]) ==
              match ConcatAll(f, xs[..i])
              case Err(e) => Err(e)
              case Ok(prefix) =>
                match f(xs[i])
                case Err(e) => Err(e)
                case Ok(ys) => Ok(prefix + ys)
  {
    assert xs[..i + 1] == xs[..i] + [xs[i]];
    ConcatAllSnoc(f, xs[..i], xs[i]);
  }

  /** The concatenation succeeds exactly when every step does; on failure the
      error is that of the first element whose step fails. */
  lemma {:induction false} ConcatAllMeaning<A, B>(f: A -> Result<seq<B>>, xs: seq<A>)
    ensures ConcatAll(f, xs).Ok? <==> forall j :: 0 <= j < |xs| ==> f(xs[j]).Ok?
    ensures ConcatAll(f, xs).Err? ==>
              exists j :: 0 <= j < |xs| && f(xs[j]) == Err(ConcatAll(f, xs).error)
                          && forall k :: 0 <= k < j ==> f(xs[k]).Ok?
    decreases |xs|
  {
    if xs != [] {
      var n := |xs| - 1;
      var init := xs[..n];
      ConcatAllMeaning(f, init);
      assert xs == init + [xs[n]];
      ConcatAllSnoc(f, init, xs[n]);
      assert forall j :: 0 <= j < n ==> init[j] == xs[j];
    }
  }

  /** Once a prefix fails, the whole concatenation fails the same way. */
  lemma {:induction false} ConcatAllErrSticks<A, B>(f: A -> Result<seq<B>>, xs: seq<A>, k: nat)
    requires k <= |xs| && ConcatAll(f, xs[..k]).Err?
    ensures ConcatAll(f, xs) == ConcatAll(f, xs[..k])
    decreases |xs| - k
  {
    if k < |xs| {
      assert xs[..k + 1] == xs[..k] + [xs[k]];
      ConcatAllSnoc(f, xs[..k], xs[k]);
      ConcatAllErrSticks(f, xs, k + 1);
    } else {
      assert xs[..k] == xs;
    }
  }

  /** Concatenating over two parts: it succeeds exactly when both parts do,
      and then the lists of the first part come before those of the second. */
  lemma {:induction false} ConcatAllAppend<A, B>(f: A -> Result<seq<B>>, xs: seq<A>, ys: seq<A>)
    ensures ConcatAll(f, xs + ys).Ok? <==> ConcatAll(f, xs).Ok? && ConcatAll(f, ys).Ok?
    ensures ConcatAll(f, xs + ys).Ok? ==>
              ConcatAll(f, xs + ys).value == ConcatAll(f, xs).value + ConcatAll(f, ys).value
    decreases |ys|
  {
    if ys == [] {
      assert xs + ys == xs;
    } else {
      var n := |ys| - 1;
      ConcatAllAppend(f, xs, ys[..n]);
      assert xs + ys == (xs + ys[..n]) + [ys[n]];
      assert ys == ys[..n] + [ys[n]];
      ConcatAllSnoc(f, xs + ys[..n], ys[n]);
      ConcatAllSnoc(f, ys[..n], ys[n]);
    }
  }

  /** The list of element i stands between the lists of the elements before
      it and those of the elements after it. */
  lemma ConcatAllAt<A, B>(f: A -> Result<seq<B>>, xs: seq<A>, i: nat)
    requires ConcatAll(f, xs).Ok? && i < |xs|
    ensures var before := ConcatAll(f, xs[..i]);
            var after := ConcatAll(f, xs[i + 1..]);
            && before.Ok? && f(xs[i]).Ok? && after.Ok?
            && ConcatAll(f, xs).value == before.value + f(xs[i]).value + after.value
  {
    var a, one, c := xs[..i], [xs[i]], xs[i + 1..];
    SplitAround(xs, i);
    ConcatAllAppend(f, a + one, c);
    assert ConcatAll(f, a + one).Ok? && ConcatAll(f, c).Ok?;
    ConcatAllAppend(f, a, one);
    ConcatAllSingle(f, xs[i]);
    assert ConcatAll(f, a + one).value == ConcatAll(f, a).value + f(xs[i]).value;
  }

  lemma SplitAround<A>(xs: seq<A>, i: nat)
    requires i < |xs|
    ensures xs == (xs[..i] + [xs[i]]) + xs[i + 1..]
  {
    assert xs[..i + 1] == xs[..i] + [xs[i]];
    assert xs == xs[..i + 1] + xs[i + 1..];
  }

  lemma ConcatAllSingle<A, B>(f: A -> Result<seq<B>>, x: A)
    ensures ConcatAll(f, [x]) == f(x)
  {
    assert [x][..0] == [];
    if f(x).Ok? {
      assert [] + f(x).value == f(x).value;
    }
  }
}
